=== FILE: README.md ===
# Ergo wallet: request dispatch and paged signing-prompt QR codes

This project models two pieces of sequential logic in the Ergo wallet client
and proves properties about them in Dafny.

1. **Incoming-request dispatch** (`MainAppUiLogic.handleRequests`). A string
   reaches the wallet from a QR-code scan or from a deep link. It is classified
   by the recognisers `isPaymentRequestUrl`, `isErgoPaySigningRequest`,
   `isColdSigningRequestChunk`/`getColdSignedTxChunk` and `isErgoAuthRequest`.
   It is then routed to the wallet chooser, to ErgoPay, to ErgoAuth
   authentication, to a user message, or to nothing. The model is the pure
   function `MainAppUiLogic.HandleRequests`. Its result type `Outcome` has one
   constructor per callback plus `Nothing`, so a call invokes at most one
   callback. The recognisers are fields of a `Classifier` record of total
   functions. The if/else-if chain is also given an independent reading: a
   priority table scanned for its first matching rule (`FirstMatch`). A lemma
   proves that the two readings agree.
2. **Paged QR display** (`PagedQrContainer` inside `SigningPromptDialog`, the
   desktop front-end). A cold-signing prompt is split into QR pages. A single
   button walks through the pages and fires "continue" on the last one. A
   low-resolution toggle re-chunks the prompt with the `QR_DATA_LENGTH_LOW_RES`
   limit and starts over at page 0. The Compose state is the immutable record
   `Container`. It holds the `remember(lowRes)` key with its pages and page
   index, the `lastPage` flag the click handler captured, and the remembered
   "page X of N" label. Clicks, toggles and recompositions are separate
   events (`Run`). The click handler and the label cache are modelled both as
   written and corrected (see Findings), selected by `Build`. The main result:
   with the corrected handler, `qrPages[page]` stays in range for every event
   sequence. As written, it stays in range as long as a recomposition
   separates any two clicks.

Files: `wrappers.dfy` (an `Option` type for Kotlin's nullable values),
`main_app_ui_logic.dfy`, `signing_prompt_dialog.dfy`.

## Model

| member | source | states |
|---|---|---|
| MainAppUiLogic.HandleRequests | common-jvm/src/main/java/org/ergoplatform/uilogic/MainAppUiLogic.kt:11-32 | A payment request always goes to the wallet chooser. Otherwise an ErgoPay request goes to ErgoPay, even if it is also a cold-signing chunk or an ErgoAuth request. The signing hint appears exactly for scanned cold-signing content that no earlier branch claimed. Authentication happens exactly for an unclaimed ErgoAuth request, and a deep-linked cold-signing chunk does not block it. Messages answer only QR scans. The "content unknown" message appears exactly for a scanned string that no recogniser accepts. Nothing happens exactly for a deep link with no navigation match. Every navigation callback receives `data` unchanged. |
| MainAppUiLogic.ScanningOnlyAddsMessages | common-jvm/src/main/java/org/ergoplatform/uilogic/MainAppUiLogic.kt:24-30 | Scanning a string instead of deep-linking it either changes nothing or yields a user message. A navigation outcome of a scan is also the outcome of the same deep link. |
| MainAppUiLogic.FirstMatch | common-jvm/src/main/java/org/ergoplatform/uilogic/MainAppUiLogic.kt:20-31 | An if/else-if chain read as a rule table. The result is the index of a rule that accepts the string when no earlier rule does, or none when no rule accepts it. |
| MainAppUiLogic.HandleRequestsIsFirstMatch | common-jvm/src/main/java/org/ergoplatform/uilogic/MainAppUiLogic.kt:20-31 | The dispatcher equals routing through the five-row priority table (payment, ErgoPay, scanned cold-signing hint, ErgoAuth, scanned unknown). A string that no row accepts invokes nothing. |
| SigningPromptDialog.OpenDialog | desktop/src/main/java/org/ergoplatform/desktop/transactions/SigningPromptDialog.kt:36 | The dialog opens in full resolution on page 0, with pages chunked at `QR_DATA_LENGTH_LIMIT`. |
| SigningPromptDialog.Rekey | desktop/src/main/java/org/ergoplatform/desktop/transactions/SigningPromptDialog.kt:90-93 | At composition, a changed `lowRes` key re-chunks the pages, with `QR_DATA_LENGTH_LOW_RES` when `lowRes` holds and `QR_DATA_LENGTH_LIMIT` otherwise, and resets the page to 0. An unchanged key keeps the state. The remembered label survives. |
| SigningPromptDialog.OnToggle | desktop/src/main/java/org/ergoplatform/desktop/transactions/SigningPromptDialog.kt:75 | The toggle flips `lowRes` and leaves every other field unchanged: pages, page, composed key, captured `lastPage` and remembered label. The container sees the new key at its next composition. |
| SigningPromptDialog.ToggleRechunks | desktop/src/main/java/org/ergoplatform/desktop/transactions/SigningPromptDialog.kt:75-93 | After one toggle, the next composition shows page 0 of the other mode's chunks. Two toggles before a composition leave it as it would have been. |
| SigningPromptDialog.Compose | desktop/src/main/java/org/ergoplatform/desktop/transactions/SigningPromptDialog.kt:94-135 | A composition throws exactly when `page` is out of range after re-keying. Otherwise it shows `pages[page]`. The description and button read prompt-signing / scan-signed-tx exactly on the last page, and multiple / next elsewhere. The pages label is present exactly when there is more than one page. The handler's captured `lastPage` matches the new page. |
| SigningPromptDialog.RecomposeAsWritten | desktop/src/main/java/org/ergoplatform/desktop/transactions/SigningPromptDialog.kt:121-124 | The label is remembered under the key `page` alone. With the key unchanged it shows the cached arguments, and only otherwise "page + 1 of \|pages\|". |
| SigningPromptDialog.Recompose | desktop/src/main/java/org/ergoplatform/desktop/transactions/SigningPromptDialog.kt:121-124 | Corrected label: it is present exactly when \|pages\| > 1 and always reads page + 1 of \|pages\|, with the page number in 1..\|pages\|. |
| SigningPromptDialog.StaleLabelAfterToggle | desktop/src/main/java/org/ergoplatform/desktop/transactions/SigningPromptDialog.kt:123-124 | Counterexample for the source as written. For any chunker that yields 2 full-resolution and 3 low-resolution pages, toggling on page 0 still shows "1 of 2" over 3 pages. The corrected label shows "1 of 3". |
| SigningPromptDialog.OnClickAsWritten | desktop/src/main/java/org/ergoplatform/desktop/transactions/SigningPromptDialog.kt:107-131 | The handler tests the captured `lastPage` and increments the live page. It fires continue exactly when the captured flag is set. When the flag is current, an in-range page stays in range. |
| SigningPromptDialog.OnClick | desktop/src/main/java/org/ergoplatform/desktop/transactions/SigningPromptDialog.kt:131 | The corrected handler fires continue exactly when the captured `lastPage` is set, that is, when the scan-signed-transaction button and the last page are on screen. Otherwise it advances one page, but drops a click that would move past the last page. It keeps the page in range, and it agrees with the handler as written whenever the captured flag is current. |
| SigningPromptDialog.DoubleClickOverrunsPages | desktop/src/main/java/org/ergoplatform/desktop/transactions/SigningPromptDialog.kt:94-131 | Counterexample for the source as written. On two pages, two clicks before a recomposition take the page to 2, and the next composition throws. The corrected handler drops the second click, fires nothing, and the next composition shows the last page. |
| SigningPromptDialog.Run | desktop/src/main/java/org/ergoplatform/desktop/transactions/SigningPromptDialog.kt:94-131 | With the corrected handler, and chunks non-empty in both modes, any interleaving of clicks, toggles and compositions never throws and keeps `page < \|pages\|`. Continue fires at most once per event. |
| SigningPromptDialog.Launch | desktop/src/main/java/org/ergoplatform/desktop/transactions/SigningPromptDialog.kt:36-94 | The opened, composed dialog never throws under the corrected handler, whatever the events. |
| SigningPromptDialog.AsWrittenSafeWhenClicksSeparated | desktop/src/main/java/org/ergoplatform/desktop/transactions/SigningPromptDialog.kt:107-131 | The source as written never throws, provided a composition lies between any two clicks. |
| SigningPromptDialog.ClicksAdvance | desktop/src/main/java/org/ergoplatform/desktop/transactions/SigningPromptDialog.kt:131 | With a composition after each click, n clicks within the pages advance the page by exactly n and fire nothing. This holds for both builds. |
| SigningPromptDialog.ClickThroughFiresContinueOnce | desktop/src/main/java/org/ergoplatform/desktop/transactions/SigningPromptDialog.kt:107-131 | From the opened dialog, \|pages\| - 1 click-and-compose rounds reach the last page without firing continue, and the next click fires it exactly once. |
| SigningPromptDialog.CollectedPagesLabel | desktop/src/main/java/org/ergoplatform/desktop/transactions/SigningPromptDialog.kt:57-63 | The collected-pages label appears exactly when a pages collector exists and `pagesAdded > 0`. It then shows `pagesAdded` and `pagesCount`. |

## Findings

| source | as written | input that shows it | evidently intended | confidence | as-written member | corrected member |
|---|---|---|---|---|---|---|
| desktop/src/main/java/org/ergoplatform/desktop/transactions/SigningPromptDialog.kt:123-124 | The pages label is remembered with the key `page` only, although its text also uses `qrPages.size`. | 2 pages at full resolution and 3 at low resolution. Toggle while on page 0: the page stays 0, so the label still reads "1 of 2" over 3 pages. | The label is keyed on the page count too, so it always reads page + 1 of \|pages\|. | medium, not executed | SigningPromptDialog.RecomposeAsWritten, SigningPromptDialog.StaleLabelAfterToggle | SigningPromptDialog.Recompose |
| desktop/src/main/java/org/ergoplatform/desktop/transactions/SigningPromptDialog.kt:107-131 | The click handler tests the `lastPage` captured at composition but increments the live `page`. | 2 pages. Two clicks are handled before the next recomposition: the page goes 0, 1, 2, and `qrPages[2]` throws at line 94. | The handler keeps firing continue only when the composed screen shows the last page, and drops a click that would move the live page past it. | low, not executed | SigningPromptDialog.OnClickAsWritten, SigningPromptDialog.DoubleClickOverrunsPages | SigningPromptDialog.OnClick, SigningPromptDialog.Run |

## Left out

- The bodies of `isPaymentRequestUrl`, `isErgoPaySigningRequest`, `isColdSigningRequestChunk`, `getColdSignedTxChunk`, `isErgoAuthRequest` and `coldSigningRequestToQrChunks` are not part of this model. They are parameters: total pure functions with no further constraint.
- The values of `QR_DATA_LENGTH_LIMIT` and `QR_DATA_LENGTH_LOW_RES` are not part of this model. They are carried in the `Limits` record.
- `stringProvider.getString` and `Application.texts.getString` are left out. Messages and labels are modelled by their resource keys and arguments.
- QR image rendering (`getQrCodeImageBitmap`) is left out. The model keeps only the page string it is given.
- SigningPromptDialog.Run: its in-range guarantee assumes the chunker yields at least one page in both modes. For an empty chunk list, the source throws at `qrPages[page]`. `Compose` models that case as `None`.
- The QR image is remembered under `(page, qrPages)`. The model evaluates `qrPages[page]` at every composition. The image is only recomputed, and can only throw, when one of those keys changes, and a page out of range always follows such a change.
- Kotlin's 32-bit `Int` for `page` is modelled as an unbounded `nat`. Under the proved invariant `page < |pages|`, `page + 1` cannot overflow.
- A change of the signing prompt while the dialog is open is not modelled. The container re-chunks only when its `lowRes` key changes.
- The rest of the application is not modelled. This covers the Android, iOS and Compose screens, the Mosaik runtime callbacks, the network clients, the float arithmetic of the send-funds view model, and the Room queries. These are platform glue, I/O or foreign calls.

=== FILE: main_app_ui_logic.dfy ===
/**
  The dispatcher for strings that reach the wallet from a QR-code scan or a
  deep link (`MainAppUiLogic.handleRequests`). A string is classified by five
  recognisers whose bodies live outside this model and is routed to exactly
  one navigation callback, to one user message, or to nothing at all.
 */
module MainAppUiLogic {
  import opened Wrappers

  /** The string resources the dispatcher can show to the user. */
  datatype MessageKey = HintSigningRequest | ErrorQrCodeContentUnknown

  /**
    What one call of `handleRequests` does. Each constructor stands for one of
    the four callbacks (with the argument it receives), and `Nothing` for a call
    that invokes none of them; a call therefore invokes at most one callback.
   */
  datatype Outcome =
    | ChooseWallet(data: string)   // navigateToChooseWalletDialog(data)
    | ErgoPay(data: string)        // navigateToErgoPay(data)
    | Auth(data: string)           // navigateToAuthentication(data)
    | Message(key: MessageKey)     // presentUserMessage(getString(key))
    | Nothing
  {
    predicate IsNavigation() {
      ChooseWallet? || ErgoPay? || Auth?
    }
  }

  /**
    The recognisers the dispatcher consults: `isPaymentRequestUrl`,
    `isErgoPaySigningRequest`, `isColdSigningRequestChunk`,
    `getColdSignedTxChunk` (nullable result) and `isErgoAuthRequest`.
    They are pure and total, and otherwise unconstrained.
   */
  datatype Classifier = Classifier(
    isPaymentRequestUrl: string -> bool,
    isErgoPaySigningRequest: string -> bool,
    isColdSigningRequestChunk: string -> bool,
    getColdSignedTxChunk: string -> Option<string>,
    isErgoAuthRequest: string -> bool)

  /** A chunk of a cold-signing request, or of a signed transaction coming back. */
  predicate IsColdSigningContent(c: Classifier, data: string) {
    c.isColdSigningRequestChunk(data) || c.getColdSignedTxChunk(data).Some?
  }

  /** No recogniser accepts the string. */
  predicate Unrecognised(c: Classifier, data: string) {
    && !c.isPaymentRequestUrl(data)
    && !c.isErgoPaySigningRequest(data)
    && !IsColdSigningContent(c, data)
    && !c.isErgoAuthRequest(data)
  }

  /** `handleRequests(data, fromQrCode, ...)`: one if/else-if chain, so one outcome. */
  function HandleRequests(data: string, fromQrCode: bool, c: Classifier): (r: Outcome)
    // a payment request wins whatever the other recognisers and the origin say
    ensures c.isPaymentRequestUrl(data) ==> r == ChooseWallet(data)
    // an ErgoPay request wins over cold-signing chunks and ErgoAuth requests
    ensures !c.isPaymentRequestUrl(data) && c.isErgoPaySigningRequest(data) ==> r == ErgoPay(data)
    // the signing hint is shown exactly for scanned cold-signing content not claimed above
    ensures r == Message(HintSigningRequest) <==>
      fromQrCode && !c.isPaymentRequestUrl(data) && !c.isErgoPaySigningRequest(data)
      && IsColdSigningContent(c, data)
    // authentication: an ErgoAuth request that no earlier branch claimed; a
    // deep-linked cold-signing chunk does not block it
    ensures r.Auth? <==>
      !c.isPaymentRequestUrl(data) && !c.isErgoPaySigningRequest(data)
      && !(fromQrCode && IsColdSigningContent(c, data)) && c.isErgoAuthRequest(data)
    // messages only ever answer a scanned QR code
    ensures r.Message? ==> fromQrCode
    ensures r == Message(ErrorQrCodeContentUnknown) <==> fromQrCode && Unrecognised(c, data)
    // nothing happens exactly for a deep link no navigation recogniser accepts
    ensures r == Nothing <==>
      !fromQrCode && !c.isPaymentRequestUrl(data) && !c.isErgoPaySigningRequest(data)
      && !c.isErgoAuthRequest(data)
    // navigation hands over the original string unchanged
    ensures r.IsNavigation() ==> r.data == data
  {
    if c.isPaymentRequestUrl(data) then ChooseWallet(data)
    else if c.isErgoPaySigningRequest(data) then ErgoPay(data)
    else if fromQrCode && IsColdSigningContent(c, data) then Message(HintSigningRequest)
    else if c.isErgoAuthRequest(data) then Auth(data)
    else if fromQrCode then Message(ErrorQrCodeContentUnknown)
    else Nothing
  }

  /**
    Scanning a string instead of receiving it as a deep link can only turn the
    outcome into a user message; every navigation outcome is the same for both
    origins unless the scanned string is cold-signing content.
   */
  lemma ScanningOnlyAddsMessages(data: string, c: Classifier)
    ensures HandleRequests(data, true, c) == HandleRequests(data, false, c)
         || HandleRequests(data, true, c).Message?
    ensures HandleRequests(data, true, c).IsNavigation() ==>
              HandleRequests(data, false, c) == HandleRequests(data, true, c)
  {
  }

  // ---------------------------------------------------------------------------
  // Reference definition: the chain as a priority table scanned for the first
  // matching rule.

  /** Which callback a rule routes to. */
  datatype Route = ToChooseWallet | ToErgoPay | ToAuthentication | Show(key: MessageKey)

  datatype Rule = Rule(accepts: string -> bool, route: Route)

  function Deliver(route: Route, data: string): Outcome {
    match route
    case ToChooseWallet => ChooseWallet(data)
    case ToErgoPay => ErgoPay(data)
    case ToAuthentication => Auth(data)
    case Show(key) => Message(key)
  }

  /** The index of the first rule accepting `data`, if any. */
  function FirstMatch(rules: seq<Rule>, data: string): (r: Option<nat>)
    ensures r.Some? ==>
      && r.value < |rules|
      && rules[r.value].accepts(data)
      && forall j :: 0 <= j < r.value ==> !rules[j].accepts(data)
    ensures r.None? ==> forall j :: 0 <= j < |rules| ==> !rules[j].accepts(data)
    decreases |rules|
  {
    if |rules| == 0 then None
    else if rules[0].accepts(data) then Some(0)
    else
      match FirstMatch(rules[1..], data)
      case None => None
      case Some(i) => Some(i + 1)
  }

  /** The outcome of routing `data` through a table; no matching rule means no callback. */
  function RouteBy(rules: seq<Rule>, data: string): Outcome {
    match FirstMatch(rules, data)
    case None => Nothing
    case Some(i) => Deliver(rules[i].route, data)
  }

  /** The five branches of `handleRequests`, highest priority first. */
  function PriorityTable(fromQrCode: bool, c: Classifier): seq<Rule> {
    [ Rule(c.isPaymentRequestUrl, ToChooseWallet),
      Rule(c.isErgoPaySigningRequest, ToErgoPay),
      Rule(d => fromQrCode && IsColdSigningContent(c, d), Show(HintSigningRequest)),
      Rule(c.isErgoAuthRequest, ToAuthentication),
      Rule(_ => fromQrCode, Show(ErrorQrCodeContentUnknown)) ]
  }

  /** The dispatcher routes every string as the first matching row of the priority table. */
  lemma HandleRequestsIsFirstMatch(data: string, fromQrCode: bool, c: Classifier)
    ensures HandleRequests(data, fromQrCode, c) == RouteBy(PriorityTable(fromQrCode, c), data)
  {
    var rules := PriorityTable(fromQrCode, c);
    assert rules[0].accepts(data) == c.isPaymentRequestUrl(data);
    assert rules[1].accepts(data) == c.isErgoPaySigningRequest(data);
    assert rules[2].accepts(data) == (fromQrCode && IsColdSigningContent(c, data));
    assert rules[3].accepts(data) == c.isErgoAuthRequest(data);
    assert rules[4].accepts(data) == fromQrCode;
    match FirstMatch(rules, data)
    case None =>
    case Some(i) =>
  }
}

=== FILE: signing_prompt_dialog.dfy ===
/**
  The desktop signing-prompt dialog: a signing request split into QR-code
  pages (`PagedQrContainer`) that the user walks through with a single
  button, plus a toggle that re-chunks the request with the low-resolution
  length limit.

  Compose state is modelled as an immutable record holding what the last
  composition remembered: the `remember(lowRes)` key with its pages and page
  index, the `lastPage` flag the button's click handler captured, and the
  remembered "page X of N" label. User input (button clicks, toggles) and
  recompositions are separate events, because the source's handlers see the
  values of the composition that created them.
 */
module SigningPromptDialog {
  import opened Wrappers

  /**
    The two chunk-length constants, `QR_DATA_LENGTH_LIMIT` and
    `QR_DATA_LENGTH_LOW_RES`; their values are defined outside this model.
   */
  datatype Limits = Limits(dataLengthLimit: int, dataLengthLowRes: int)

  /**
    `calcChunks`: splits the signing prompt into QR pages no longer than the
    given limit (the dialog passes `coldSigningRequestToQrChunks(prompt, limit)`).
   */
  type ChunkFn = int -> seq<string>

  function ChunkLimit(lowRes: bool, limits: Limits): int {
    if lowRes then limits.dataLengthLowRes else limits.dataLengthLimit
  }

  /** The chunker yields at least one page in both resolutions. */
  predicate ChunksNonEmpty(calcChunks: ChunkFn, limits: Limits) {
    |calcChunks(limits.dataLengthLimit)| > 0 && |calcChunks(limits.dataLengthLowRes)| > 0
  }

  /** The arguments of `STRING_LABEL_QR_PAGES_INFO`: page number and page count. */
  datatype PagesInfo = PagesInfo(current: int, count: int)

  /** The label text `remember(page) { ... }` keeps, with the key it was computed for. */
  datatype LabelSlot = LabelSlot(key: nat, info: PagesInfo)

  datatype Container = Container(
    lowRes: bool,                  // the dialog's `lowRes`, flipped by the toggle
    composedLowRes: bool,          // the `remember(lowRes)` key of the last composition
    pages: seq<string>,            // `qrPages`
    page: nat,                     // `page`
    lastPage: bool,                // `lastPage` as captured by the button's handler
    labelSlot: Option<LabelSlot>)  // the remembered pages label, while it is composed

  /** `qrPages[page]` can be evaluated. */
  predicate InBounds(s: Container) {
    s.page < |s.pages|
  }

  predicate IsLastPage(s: Container) {
    s.page == |s.pages| - 1
  }

  /** The page is in range and the handler's captured `lastPage` agrees with it. */
  predicate Armed(s: Container) {
    InBounds(s) && (s.lastPage <==> IsLastPage(s))
  }

  /** The dialog before its first composition: full resolution, page 0. */
  function OpenDialog(calcChunks: ChunkFn, limits: Limits): (s: Container)
    ensures !s.lowRes && s.composedLowRes == s.lowRes && s.page == 0
    ensures s.pages == calcChunks(limits.dataLengthLimit) && s.labelSlot.None?
    ensures |calcChunks(limits.dataLengthLimit)| > 0 ==> InBounds(s)
  {
    Container(false, false, calcChunks(ChunkLimit(false, limits)), 0, false, None)
  }

  /**
    The `remember(lowRes)` state as a composition sees it: when the key has
    changed, the pages are chunked again with the limit the new key selects
    and the page starts over at 0; otherwise the state is kept.
   */
  function Rekey(s: Container, calcChunks: ChunkFn, limits: Limits): (t: Container)
    ensures t.lowRes == s.lowRes && t.composedLowRes == s.lowRes && t.labelSlot == s.labelSlot
    ensures s.composedLowRes == s.lowRes ==> t == s
    ensures s.composedLowRes != s.lowRes ==> t.page == 0
    ensures s.composedLowRes != s.lowRes && s.lowRes ==> t.pages == calcChunks(limits.dataLengthLowRes)
    ensures s.composedLowRes != s.lowRes && !s.lowRes ==> t.pages == calcChunks(limits.dataLengthLimit)
    ensures ChunksNonEmpty(calcChunks, limits) && InBounds(s) ==> InBounds(t)
  {
    if s.composedLowRes == s.lowRes then s
    else s.(composedLowRes := s.lowRes, pages := calcChunks(ChunkLimit(s.lowRes, limits)), page := 0)
  }

  /**
    The dialog's low-res toggle flips `lowRes`; the container sees the new key
    only at the next composition.
   */
  function OnToggle(s: Container): (t: Container)
    ensures t.lowRes == !s.lowRes
    ensures t.pages == s.pages && t.page == s.page && t.composedLowRes == s.composedLowRes
    ensures t.lastPage == s.lastPage && t.labelSlot == s.labelSlot
  {
    s.(lowRes := !s.lowRes)
  }

  // ---------------------------------------------------------------------------
  // Composition.

  /** The string resources the container shows. */
  datatype TextKey =
    | DescPromptSigning | DescPromptSigningMultiple
    | ButtonNext | ButtonScanSignedTx

  datatype View = View(
    qrContent: string,
    description: TextKey,
    pagesInfo: Option<PagesInfo>,
    button: TextKey)

  datatype Frame = Frame(view: View, state: Container)

  /**
    The source as written, or corrected in two places: the pages label is
    remembered under the page count as well as the page, and the click
    handler tests the live page instead of the captured `lastPage`.
   */
  datatype Build = AsWritten | Corrected

  /**
    The label slot after a composition: absent while there is only one page;
    as written, reused whenever its `page` key is unchanged; otherwise computed
    afresh.
   */
  function LabelFor(b: Build, t: Container): Option<LabelSlot> {
    if |t.pages| <= 1 then None
    else if b == AsWritten && t.labelSlot.Some? && t.labelSlot.value.key == t.page then t.labelSlot
    else Some(LabelSlot(t.page, PagesInfo(t.page + 1, |t.pages|)))
  }

  /**
    One composition of `PagedQrContainer`. `None` stands for the exception
    `qrPages[page]` throws when the page is out of range.
   */
  function Compose(b: Build, s: Container, calcChunks: ChunkFn, limits: Limits): (r: Option<Frame>)
    ensures r.Some? <==> InBounds(Rekey(s, calcChunks, limits))
    ensures r.Some? ==>
      var t := Rekey(s, calcChunks, limits);
      var v := r.value.view;
      && v.qrContent == t.pages[t.page]
      && (v.description == DescPromptSigning <==> IsLastPage(t))
      && v.description in {DescPromptSigning, DescPromptSigningMultiple}
      && (v.button == ButtonScanSignedTx <==> IsLastPage(t))
      && v.button in {ButtonNext, ButtonScanSignedTx}
      && (v.pagesInfo.Some? <==> |t.pages| > 1)
    ensures r.Some? ==>
      var t := Rekey(s, calcChunks, limits);
      var u := r.value.state;
      && u.lowRes == t.lowRes && u.composedLowRes == t.lowRes
      && u.pages == t.pages && u.page == t.page
      && Armed(u)
      && (r.value.view.pagesInfo.Some? ==> u.labelSlot.Some? && r.value.view.pagesInfo.value == u.labelSlot.value.info)
  {
    var t := Rekey(s, calcChunks, limits);
    if !InBounds(t) then None
    else
      var last := IsLastPage(t);
      var slot := LabelFor(b, t);
      Some(Frame(
        View(
          t.pages[t.page],
          if last then DescPromptSigning else DescPromptSigningMultiple,
          if slot.Some? then Some(slot.value.info) else None,
          if !last then ButtonNext else ButtonScanSignedTx),
        t.(lastPage := last, labelSlot := slot)))
  }

  /**
    A composition as written: the pages label is remembered under the key
    `page` alone, so a label computed for an earlier page set is shown again
    as long as the page index is the same.
   */
  function RecomposeAsWritten(s: Container, calcChunks: ChunkFn, limits: Limits): (r: Option<Frame>)
    ensures r.Some? <==> InBounds(Rekey(s, calcChunks, limits))
    ensures r.Some? ==>
      var t := Rekey(s, calcChunks, limits);
      |t.pages| > 1 && s.labelSlot.Some? && s.labelSlot.value.key == t.page ==>
        r.value.view.pagesInfo == Some(s.labelSlot.value.info)
    ensures r.Some? ==>
      var t := Rekey(s, calcChunks, limits);
      |t.pages| > 1 && !(s.labelSlot.Some? && s.labelSlot.value.key == t.page) ==>
        r.value.view.pagesInfo == Some(PagesInfo(t.page + 1, |t.pages|))
  {
    Compose(AsWritten, s, calcChunks, limits)
  }

  /**
    A composition with the label keyed on the page and the page count: the
    label always reads "page + 1 of |pages|", a number within 1..|pages|.
   */
  function Recompose(s: Container, calcChunks: ChunkFn, limits: Limits): (r: Option<Frame>)
    ensures r.Some? <==> InBounds(Rekey(s, calcChunks, limits))
    ensures r.Some? ==>
      var t := Rekey(s, calcChunks, limits);
      && (r.value.view.pagesInfo.Some? <==> |t.pages| > 1)
      && (r.value.view.pagesInfo.Some? ==>
            var info := r.value.view.pagesInfo.value;
            info == PagesInfo(t.page + 1, |t.pages|) && 1 <= info.current <= info.count)
  {
    Compose(Corrected, s, calcChunks, limits)
  }

  /**
    As written, a label remembered on page 0 outlives a toggle that changes
    the page count: whenever the prompt splits into two full-resolution pages
    and three low-resolution ones, toggling on page 0 still shows "1 of 2"
    over three pages, where the corrected label shows "1 of 3".
   */
  lemma StaleLabelAfterToggle(calcChunks: ChunkFn, limits: Limits)
    requires |calcChunks(limits.dataLengthLimit)| == 2
    requires |calcChunks(limits.dataLengthLowRes)| == 3
    ensures
      var first := RecomposeAsWritten(OpenDialog(calcChunks, limits), calcChunks, limits);
      && first.Some?
      && first.value.view.pagesInfo == Some(PagesInfo(1, 2))
      && var toggled := OnToggle(first.value.state);
      && var stale := RecomposeAsWritten(toggled, calcChunks, limits);
      && stale.Some?
      && |stale.value.state.pages| == 3
      && stale.value.view.pagesInfo == Some(PagesInfo(1, 2))
      && Recompose(toggled, calcChunks, limits).value.view.pagesInfo == Some(PagesInfo(1, 3))
  {
  }

  // ---------------------------------------------------------------------------
  // The button.

  /** The state after an event and whether `onContinueClicked` fired. */
  datatype Reaction = Reaction(state: Container, continueFired: bool)

  /**
    The click handler as written: it tests the `lastPage` captured by the
    composition that created it, but increments the live page.
   */
  function OnClickAsWritten(s: Container): (r: Reaction)
    ensures r.continueFired <==> s.lastPage
    ensures !s.lastPage ==> r.state == s.(page := s.page + 1)
    ensures s.lastPage ==> r.state == s
    ensures Armed(s) ==> InBounds(r.state)
  {
    if !s.lastPage then Reaction(s.(page := s.page + 1), false)
    else Reaction(s, true)
  }

  /**
    The corrected click handler: as in the source, continue fires exactly
    when the composed screen shows the last page (the captured `lastPage`,
    with the scan-signed-transaction button). A click that would move the
    live page past the last one is dropped. Whenever the captured flag is
    current it does exactly what the handler as written does.
   */
  function OnClick(s: Container): (r: Reaction)
    ensures r.continueFired <==> s.lastPage
    ensures Armed(s) ==> (r.continueFired <==> IsLastPage(s))
    ensures !s.lastPage && s.page + 1 < |s.pages| ==> r.state == s.(page := s.page + 1)
    ensures !(!s.lastPage && s.page + 1 < |s.pages|) ==> r.state == s
    ensures InBounds(s) ==> InBounds(r.state)
    ensures Armed(s) ==> r == OnClickAsWritten(s)
  {
    if s.lastPage then Reaction(s, true)
    else if s.page + 1 < |s.pages| then Reaction(s.(page := s.page + 1), false)
    else Reaction(s, false)
  }

  /**
    As written, two clicks that arrive before the next composition both see
    `lastPage == false`: on two pages they move the page to 2 and the next
    composition indexes `qrPages[2]`. The corrected handler drops the second
    click, fires nothing, and the next composition shows the last page.
   */
  lemma DoubleClickOverrunsPages()
    ensures
      var calcChunks: ChunkFn := _ => ["a", "b"];
      var limits := Limits(2, 1);
      var events := [Click, Click, Recomposition];
      && Launch(AsWritten, events, calcChunks, limits).None?
      && Launch(Corrected, events, calcChunks, limits).Some?
      && var fixed := Launch(Corrected, events, calcChunks, limits).value;
      && fixed.continues == 0
      && fixed.state.page == 1 && fixed.state.lastPage
  {
    var calcChunks: ChunkFn := _ => ["a", "b"];
    var limits := Limits(2, 1);
    var events := [Click, Click, Recomposition];
    var all := [Recomposition] + events;
    assert all[1..] == events;
    assert events[1..] == [Click, Recomposition];
    assert events[1..][1..] == [Recomposition];
    var s0 := OpenDialog(calcChunks, limits);

    // as written: both clicks see the `lastPage == false` of page 0
    var s1 := Compose(AsWritten, s0, calcChunks, limits).value.state;
    var s2 := OnClickAsWritten(s1).state;
    var s3 := OnClickAsWritten(s2).state;
    assert s3.page == 2;
    assert Run(AsWritten, s3, [Recomposition], calcChunks, limits).None?;
    assert Run(AsWritten, s2, events[1..], calcChunks, limits).None?;
    assert Run(AsWritten, s1, events, calcChunks, limits).None?;
    assert Run(AsWritten, s0, all, calcChunks, limits).None?;

    // corrected: the second click is dropped, and the last page gets composed
    var c1 := Compose(Corrected, s0, calcChunks, limits).value.state;
    var c2 := OnClick(c1);
    var c3 := OnClick(c2.state);
    assert !c2.continueFired && !c3.continueFired && c3.state.page == 1;
    var tail := Run(Corrected, c3.state, [Recomposition], calcChunks, limits);
    assert tail.Some? && tail.value.continues == 0 && tail.value.state.lastPage;
    assert Run(Corrected, c2.state, events[1..], calcChunks, limits) == tail;
    assert Run(Corrected, c1, events, calcChunks, limits) == tail;
    assert Run(Corrected, s0, all, calcChunks, limits) == tail;
  }

  // ---------------------------------------------------------------------------
  // Sessions: any sequence of clicks, toggles and recompositions.

  datatype Event = Click | Toggle | Recomposition

  /** The state after a sequence of events and how often continue fired. */
  datatype Session = Session(state: Container, continues: nat)

  function Step(b: Build, s: Container, e: Event, calcChunks: ChunkFn, limits: Limits): Option<Reaction> {
    match e
    case Click => Some(if b == AsWritten then OnClickAsWritten(s) else OnClick(s))
    case Toggle => Some(Reaction(OnToggle(s), false))
    case Recomposition =>
      match Compose(b, s, calcChunks, limits)
      case None => None
      case Some(f) => Some(Reaction(f.state, false))
  }

  /**
    Runs a sequence of events; `None` when a composition throws. With the
    corrected handler, `qrPages[page]` stays in range whatever the user does
    and however clicks and compositions interleave.
   */
  function Run(b: Build, s: Container, events: seq<Event>, calcChunks: ChunkFn, limits: Limits): (r: Option<Session>)
    ensures b == Corrected && ChunksNonEmpty(calcChunks, limits) && InBounds(s) ==>
      r.Some? && InBounds(r.value.state)
    ensures r.Some? ==> r.value.continues <= |events|
    decreases |events|
  {
    if |events| == 0 then Some(Session(s, 0))
    else
      match Step(b, s, events[0], calcChunks, limits)
      case None => None
      case Some(p) =>
        match Run(b, p.state, events[1..], calcChunks, limits)
        case None => None
        case Some(rest) => Some(Session(rest.state, rest.continues + if p.continueFired then 1 else 0))
  }

  /** The dialog as the user meets it: opened, composed once, then driven by `events`. */
  function Launch(b: Build, events: seq<Event>, calcChunks: ChunkFn, limits: Limits): (r: Option<Session>)
    ensures b == Corrected && ChunksNonEmpty(calcChunks, limits) ==> r.Some? && InBounds(r.value.state)
  {
    Run(b, OpenDialog(calcChunks, limits), [Recomposition] + events, calcChunks, limits)
  }

  /** Every click is preceded by a composition since the previous click. */
  predicate ClicksSeparated(events: seq<Event>, armed: bool)
    decreases |events|
  {
    if |events| == 0 then true
    else
      match events[0]
      case Click => armed && ClicksSeparated(events[1..], false)
      case Toggle => ClicksSeparated(events[1..], armed)
      case Recomposition => ClicksSeparated(events[1..], true)
  }

  lemma {:induction false} AsWrittenStaysInRange(
    s: Container, events: seq<Event>, armed: bool, calcChunks: ChunkFn, limits: Limits)
    requires ChunksNonEmpty(calcChunks, limits) && InBounds(s) && (armed ==> Armed(s))
    requires ClicksSeparated(events, armed)
    ensures Run(AsWritten, s, events, calcChunks, limits).Some?
    decreases |events|
  {
    if |events| > 0 {
      match events[0]
      case Click =>
        AsWrittenStaysInRange(OnClickAsWritten(s).state, events[1..], false, calcChunks, limits);
      case Toggle =>
        AsWrittenStaysInRange(OnToggle(s), events[1..], armed, calcChunks, limits);
      case Recomposition =>
        var f := Compose(AsWritten, s, calcChunks, limits);
        AsWrittenStaysInRange(f.value.state, events[1..], true, calcChunks, limits);
    }
  }

  /**
    The source as written never indexes `qrPages` out of range as long as a
    composition separates any two clicks.
   */
  lemma AsWrittenSafeWhenClicksSeparated(events: seq<Event>, calcChunks: ChunkFn, limits: Limits)
    requires ChunksNonEmpty(calcChunks, limits)
    requires ClicksSeparated(events, true)
    ensures Launch(AsWritten, events, calcChunks, limits).Some?
  {
    var evs := [Recomposition] + events;
    assert evs[1..] == events;
    AsWrittenStaysInRange(OpenDialog(calcChunks, limits), evs, false, calcChunks, limits);
  }

  /**
    The toggle between compositions: one flip re-chunks for the other mode
    and starts over at page 0; two flips before the next composition leave
    the container as it was.
   */
  lemma ToggleRechunks(b: Build, s: Container, calcChunks: ChunkFn, limits: Limits)
    requires s.composedLowRes == s.lowRes
    ensures var r := Compose(b, OnToggle(s), calcChunks, limits);
      ChunksNonEmpty(calcChunks, limits) ==>
        && r.Some?
        && r.value.state.lowRes == !s.lowRes && r.value.state.page == 0
        && r.value.state.pages == calcChunks(ChunkLimit(!s.lowRes, limits))
    ensures Compose(b, OnToggle(OnToggle(s)), calcChunks, limits) == Compose(b, s, calcChunks, limits)
  {
  }

  /** Click then compose, `n` times. */
  function ClickThrough(n: nat): seq<Event>
    decreases n
  {
    if n == 0 then [] else [Click, Recomposition] + ClickThrough(n - 1)
  }

  lemma {:induction false} RunAppend(
    b: Build, s: Container, a: seq<Event>, c: seq<Event>, calcChunks: ChunkFn, limits: Limits)
    ensures Run(b, s, a + c, calcChunks, limits) ==
      match Run(b, s, a, calcChunks, limits)
      case None => None
      case Some(ra) =>
        match Run(b, ra.state, c, calcChunks, limits)
        case None => None
        case Some(rc) => Some(Session(rc.state, ra.continues + rc.continues))
    decreases |a|
  {
    if |a| > 0 {
      assert (a + c)[1..] == a[1..] + c;
      match Step(b, s, a[0], calcChunks, limits)
      case None =>
      case Some(p) => RunAppend(b, p.state, a[1..], c, calcChunks, limits);
    } else {
      assert a + c == c;
    }
  }

  /**
    When each click is followed by a composition, `n` clicks that stay within
    the pages advance the page by exactly `n` and fire nothing, in the source
    as written and corrected alike.
   */
  lemma {:induction false} ClicksAdvance(b: Build, s: Container, n: nat, calcChunks: ChunkFn, limits: Limits)
    requires s.composedLowRes == s.lowRes && Armed(s)
    requires s.page + n < |s.pages|
    ensures var r := Run(b, s, ClickThrough(n), calcChunks, limits);
      && r.Some? && r.value.continues == 0
      && r.value.state.page == s.page + n && r.value.state.pages == s.pages
      && r.value.state.lowRes == s.lowRes && r.value.state.composedLowRes == s.lowRes
      && Armed(r.value.state)
    decreases n
  {
    if n > 0 {
      var p := if b == AsWritten then OnClickAsWritten(s) else OnClick(s);
      assert p.state == s.(page := s.page + 1) && !p.continueFired;
      var f := Compose(b, p.state, calcChunks, limits);
      assert f.Some?;
      ClicksAdvance(b, f.value.state, n - 1, calcChunks, limits);
      var evs := ClickThrough(n);
      assert evs[1..] == [Recomposition] + ClickThrough(n - 1);
      assert evs[1..][1..] == ClickThrough(n - 1);
    }
  }

  /**
    Clicking and composing in turn from the opened dialog: |pages| - 1
    rounds reach the last page and fire nothing, and the next click fires
    continue once.
   */
  lemma ClickThroughFiresContinueOnce(b: Build, calcChunks: ChunkFn, limits: Limits)
    requires |calcChunks(limits.dataLengthLimit)| > 0
    ensures
      var n := |calcChunks(limits.dataLengthLimit)| - 1;
      var r := Launch(b, ClickThrough(n), calcChunks, limits);
      && r.Some? && r.value.continues == 0 && IsLastPage(r.value.state)
      && var r' := Launch(b, ClickThrough(n) + [Click], calcChunks, limits);
      && r'.Some? && r'.value.continues == 1
  {
    var n := |calcChunks(limits.dataLengthLimit)| - 1;
    var s0 := OpenDialog(calcChunks, limits);
    var s1 := Compose(b, s0, calcChunks, limits).value.state;
    ClicksAdvance(b, s1, n, calcChunks, limits);
    var evs := [Recomposition] + ClickThrough(n);
    assert evs[1..] == ClickThrough(n);
    assert [Recomposition] + (ClickThrough(n) + [Click]) == evs + [Click];
    RunAppend(b, s0, evs, [Click], calcChunks, limits);
  }

  // ---------------------------------------------------------------------------
  // The dialog's own label for signed-transaction pages collected so far.

  /** `signedTxQrCodePagesCollector`: pages of the signed transaction scanned so far. */
  datatype PagesCollector = PagesCollector(pagesAdded: int, pagesCount: int)

  /** The collected-pages label is shown only once a page has been collected. */
  function CollectedPagesLabel(collector: Option<PagesCollector>): (r: Option<PagesInfo>)
    ensures r.Some? <==> collector.Some? && collector.value.pagesAdded > 0
    ensures r.Some? ==> r.value == PagesInfo(collector.value.pagesAdded, collector.value.pagesCount)
  {
    match collector
    case None => None
    case Some(p) => if p.pagesAdded > 0 then Some(PagesInfo(p.pagesAdded, p.pagesCount)) else None
  }
}

=== FILE: wrappers.dfy ===
/** The nullable values of the source (`T?` in Kotlin) as an explicit option type. */
module Wrappers {

  datatype Option<+T> = None | Some(value: T)

}
